=== FILE: README.md ===
# Admin authentication and teacher creation, modelled in Dafny

This project models the request-decision layer of a small Express/MongoDB backend.
The layer registers and logs in admin accounts, issues a one-day session token in a
`token` cookie, clears that cookie on logout, gates a teacher-creation endpoint behind
`protect` → `adminOnly`, and decides CORS origins.

Every handler is a pure Dafny function. Its inputs are the configuration (`JWT_SECRET`,
`NODE_ENV`), the request and the store. It returns the response (status, body, cookie)
and, for handlers that write, the store afterwards. The external capabilities are
parameters:

- bcrypt is `Crypto.Hasher` (`hash`, `compare`).
- jsonwebtoken is `Crypto.TokenService` (`sign`, `verify`). A `verify` result of `None`
  stands for a bad signature, a malformed token or an expired one.
- The admin collection is a map keyed by the normalised email.
- The teacher collection is a sequence. Its unique indexes are enforced by `TeacherModel.Save`.
- What the store itself supplies (`_id`, `createdAt`, a concurrent duplicate-key
  failure) is passed in as `AdminAuth.Insert` or `AdminManages.SaveEnv`.

No property of the hasher or the token service is assumed globally. The lemmas that
need one, such as `compare(p, hash(p))`, take it as a `requires`.

Modules follow the source:

- `AdminAuth`: `src/controllers/admin.auth.controller.js`
- `AuthMiddleware`: `src/middleware/auth.middleware.js`
- `TeacherModel`: `src/models/teacher.model.js`
- `AdminManages`: `src/controllers/admin.manages.js`
- `TeacherRoute`: `src/routes/admin.manages.route.js`
- `Cors`: the origin callback of `src/app.js`

Supporting modules:

- `JsString`: the JavaScript string operations used (`trim`, `toLowerCase`, `split`, truthiness).
- `Json`: JSON values.
- `Http`: config, cookies and responses.
- `Crypto`: the hasher and token-service parameters.
- `Wrappers`: `Option`.

Behaviours of the code that the model makes explicit and proves:

- Registration creates the account before it checks `JWT_SECRET`. Without the secret it
  replies 500, but the account is already stored (`AdminAuth.RegisterChecksSecretLast`).
- Register and login tokens carry no `role` claim. Such a token can never pass
  `adminOnly`, so teacher creation is unreachable with the cookies this backend issues
  (`TeacherRoute.IssuedTokenNeverCreates`, `TeacherRoute.LoginCookieNeverCreates`).
- Teacher passwords are stored exactly as received (`AdminManages.NewTeacher`).
  `src/controllers/admin.manages.js:34` says the password "will be hashed in pre-save",
  but `src/models/teacher.model.js:14` is only a comment: no pre-save hook follows it.
- A teacher body without a usable email (missing, `null` or `""`) is checked with
  `email: null`. That query matches every stored teacher whose email is missing or
  `null`, so such a body is refused with 409 when one exists
  (`AdminManages.NoEmailConflictsWithNoEmail`). A stored email of `""` is not matched
  by that query.
- An email of `""` is checked as `null` but stored as `""`. So two such teachers get
  past the query and collide in the sparse unique index, which gives 500
  (`AdminManages.SaveFailsOnlyOnEmptyEmail`).
- `src/app.js` mounts only the auth router, so the teacher route is not reachable in
  the assembled app. It is modelled as its own pipeline (`TeacherRoute`).

## Model

| member | source | states |
|---|---|---|
| `AdminAuth.Register` | src/controllers/admin.auth.controller.js:6-74 | An incomplete body gives 400 with the store unchanged. Every 409 is the same "Email already registered" reply with the store unchanged. The cookie is set exactly on 201, and the only statuses are 201, 400, 409 and 500. |
| `AdminAuth.RegisterConflicts` | src/controllers/admin.auth.controller.js:18-69 | A complete body gets 409 iff its normalised email is already stored or the insert fails on the unique index. |
| `AdminAuth.RegisterStoreEffect` | src/controllers/admin.auth.controller.js:25-31 | Exactly one account is added, under the normalised email, when the body is complete, the email is free and the insert goes through. In every other case the store is unchanged. |
| `AdminAuth.RegisterChecksSecretLast` | src/controllers/admin.auth.controller.js:25-37 | The secret is checked only after the insert. With no secret the reply is 500 "Server misconfiguration", but the account stays stored. |
| `AdminAuth.RegisterSucceeds` | src/controllers/admin.auth.controller.js:25-64 | 201 happens exactly when the account was created and the secret is set. It then sets the one-day `token` cookie for the stored account, and its `admin` object has exactly id, name and email. |
| `AdminAuth.NormalizeEmail` | src/controllers/admin.auth.controller.js:16 | The key an email is filed and looked up under neither starts nor ends with white space and is already lower-case. |
| `AdminAuth.NewAdmin` | src/controllers/admin.auth.controller.js:25-31 | The stored account's email is the normalised email, its name is the trimmed name, and its password field is the bcrypt hash at cost 12, never the plaintext. Its id and createdAt are the ones the insert reports. |
| `AdminAuth.Login` | src/controllers/admin.auth.controller.js:79-141 | An incomplete body gives 400. Every 401 is the one "Invalid credentials" reply. The cookie is set exactly on 200, and the only statuses are 200, 400, 401 and 500. Login never changes the store, since it returns no store. |
| `AdminAuth.LoginRejects` | src/controllers/admin.auth.controller.js:91-101 | An unknown normalised email and a wrong password both get exactly the "Invalid credentials" 401. |
| `AdminAuth.LoginSucceeds` | src/controllers/admin.auth.controller.js:88-136 | 200 happens exactly when the normalised email is stored, the password compares against its hash and the secret is set. It then sets the session cookie for that account and returns id, name, email, plus createdAt only when stored. |
| `AdminAuth.Logout` | src/controllers/admin.auth.controller.js:147-157 | Always 200 "Logged out", whatever the configuration. It sets the `token` cookie to the empty string with the session cookie's attributes (httpOnly, path "/", secure and sameSite following production) and maxAge 0. |
| `AdminAuth.TokenPayload` | src/controllers/admin.auth.controller.js:39-43 | The signed claims are exactly id, name and email of the account. There is no `role`. |
| `AdminAuth.SessionCookie` | src/controllers/admin.auth.controller.js:45-54 | The cookie is named `token` and holds the payload signed with the secret for "1d". It is httpOnly with path "/" and maxAge 86400000. It is secure exactly in production, with sameSite "None" in production and "Lax" otherwise. |
| `Http.CookieProfile` | src/controllers/admin.auth.controller.js:46-52 | Cookie attributes are httpOnly with path "/" and the given maxAge. They are secure exactly when NODE_ENV is "production", with sameSite "None" in production and "Lax" otherwise. |
| `AdminAuth.RegisteredView` | src/controllers/admin.auth.controller.js:57-64 | The `admin` object of a registration has exactly the keys id, name and email, taken from the stored account, and never password. |
| `AdminAuth.LoginView` | src/controllers/admin.auth.controller.js:128-136 | The `admin` object of a login has id, name and email, plus createdAt exactly when the account has one, and never password. |
| `AdminAuth.NormalizeIsTrimmedLowerCase` | src/controllers/admin.auth.controller.js:16 | Trimming then lower-casing equals lower-casing then trimming. |
| `AdminAuth.NormalizeIdempotent` | src/controllers/admin.auth.controller.js:16 | Normalising a normalised email changes nothing. |
| `AdminAuth.NormalizeIgnoresCase` | src/controllers/admin.auth.controller.js:16 | Emails that agree after lower-casing normalise to the same key. |
| `AdminAuth.NormalizeIgnoresPadding` | src/controllers/admin.auth.controller.js:16 | Surrounding white space does not change the normalised key. |
| `AdminAuth.PaddedUpperCaseEmailCollides` | src/controllers/admin.auth.controller.js:16-22 | " A@x.com " and "a@x.com" normalise to the same key. |
| `AdminAuth.RegisterPreservesValidStore` | src/controllers/admin.auth.controller.js:16-31 | Registration keeps every account filed under its own normalised email. |
| `AdminAuth.RegisterRejectsEquivalentEmail` | src/controllers/admin.auth.controller.js:18-22 | After a registration, any second registration whose email normalises alike gets 409 and leaves the store as it was. |
| `AdminAuth.RegisterThenLogin` | src/controllers/admin.auth.controller.js:16-136 | When registration creates an account and the secret is set, it replies 201. A later login with the same password and any email spelling that normalises alike gives 200. Both replies describe the same new account, under the normalised login email, given that bcrypt accepts a password against its own hash. |
| `AdminAuth.LoginHidesAccountExistence` | src/controllers/admin.auth.controller.js:91-101 | An unknown email and a wrong password produce equal responses, both 401. |
| `AdminAuth.LogoutClearsSessionCookie` | src/controllers/admin.auth.controller.js:147-157 | The logout cookie has the login cookie's name and attributes, with maxAge 0 instead of one day. |
| `JsString.Split` | src/middleware/auth.middleware.js:23 | There is always at least one piece, and no piece holds the separator. The first piece is the separator-free prefix of the input. There is exactly one piece iff the input has no separator. |
| `JsString.JoinSplit` | src/middleware/auth.middleware.js:23 | Joining the pieces of a split with the separator gives back the input. |
| `JsString.SplitJoin` | src/middleware/auth.middleware.js:23 | Splitting a join of separator-free pieces gives back the pieces. |
| `JsString.Trim` | src/controllers/admin.auth.controller.js:16 | The result of `trim` neither starts nor ends with white space (ECMAScript WhiteSpace and LineTerminator) and is no longer than the input. |
| `JsString.TrimCore` | src/controllers/admin.auth.controller.js:16 | Every string is the result of `trim` between two runs of white space. |
| `JsString.TrimOfPadded` | src/controllers/admin.auth.controller.js:16 | `trim` removes exactly the white space around a core that neither starts nor ends with white space. |
| `JsString.TrimIgnoresPadding` | src/controllers/admin.auth.controller.js:28 | Extra surrounding white space does not change the result of `trim`. |
| `JsString.TrimLowerCommute` | src/controllers/admin.auth.controller.js:88 | `trim` and `toLowerCase` commute. |
| `JsString.ToLowerCase` | src/controllers/admin.auth.controller.js:16 | The modelled ASCII lower-casing keeps the length of the string. |
| `JsString.LowerCaseAt` | src/controllers/admin.auth.controller.js:16 | The modelled ASCII lower-casing maps each character in place: A-Z to a-z, every other character unchanged. |
| `JsString.LowerCaseIdempotent` | src/controllers/admin.auth.controller.js:88 | Lower-casing a lower-cased string changes nothing. |
| `AuthMiddleware.HeaderToken` | src/middleware/auth.middleware.js:18-24 | The header gives a candidate exactly when it is present and starts with "Bearer ". |
| `AuthMiddleware.HeaderTokenIsNextWord` | src/middleware/auth.middleware.js:23 | For "Bearer " + rest, the candidate is the trimmed text of rest up to its first space. |
| `AuthMiddleware.ExtractToken` | src/middleware/auth.middleware.js:17-34 | Precedence: a truthy header token wins. Otherwise a truthy cookie wins. Otherwise a truthy query parameter wins. The result is truthy iff one of the three is. |
| `AuthMiddleware.EmptyBearerFallsThrough` | src/middleware/auth.middleware.js:23-34 | "Bearer " followed by nothing or by a space yields an empty candidate. Extraction then answers as if there were no header. |
| `AuthMiddleware.ClaimsUser` | src/middleware/auth.middleware.js:51-57 | `req.user` holds the id, role, email and name claims of the decoded token, each absent when the claim is. |
| `AuthMiddleware.Protect` | src/middleware/auth.middleware.js:14-65 | No token gives 401 "Not authorized, no token", checked before the secret. A token without a secret gives 500. A verify failure gives 401 "Not authorized, token failed or expired". It proceeds exactly when the token verifies, with `req.user` holding exactly the id, role, email and name claims of the decoded token. |
| `AuthMiddleware.NoTokenCheckedBeforeSecret` | src/middleware/auth.middleware.js:36-45 | Without any token the answer is 401, whatever the configuration. |
| `AuthMiddleware.AdminOnly` | src/middleware/auth.middleware.js:71-81 | No `req.user` gives 401. A role other than the string "admin" gives 403. It proceeds iff the role is "admin". |
| `TeacherModel.HasRequired` | src/models/teacher.model.js:5-8 | Defines the required paths: teacherId, name and password must be non-empty strings. `AdminManages.NewTeacher` ensures every built document has them. |
| `TeacherModel.Clash` | src/models/teacher.model.js:5-7 | Defines when two documents cannot both be stored: the same teacherId (unique index), or the same email when it is present, including `null` and `""` (sparse unique index). |
| `TeacherModel.ClashSymmetric` | src/models/teacher.model.js:5-7 | The two indexes treat a pair of documents alike in either order. |
| `TeacherModel.ValidStore` | src/models/teacher.model.js:4-12 | Defines the collection invariant: every document has its required paths, and no two documents clash. |
| `TeacherModel.ValidStoreDistinct` | src/models/teacher.model.js:5-7 | In a valid collection no two documents share a teacherId, and no two share an email unless both lack the field. |
| `TeacherModel.EmailMatches` | src/controllers/admin.manages.js:22 | Defines MongoDB equality on `email`: a `null` query matches a missing or `null` field, and an address matches only itself. |
| `TeacherModel.NullQueryFindsNoAddress` | src/controllers/admin.manages.js:21-23 | A query with a `null` email finds a document whenever some stored teacher has no address (missing or `null`), whatever the teacherId. What it finds has that teacherId or no address. |
| `TeacherModel.FindOne` | src/controllers/admin.manages.js:21-23 | A document is found iff some stored teacher has the same teacherId or an email matching the query. A `null` query email matches a null or missing email. The document found matches and is stored. |
| `TeacherModel.Save` | src/models/teacher.model.js:4-12 | A document is saved iff it has teacherId, name and password and clashes with no stored one on teacherId or on a present email. It is appended, and the required-field and unique-index invariants are preserved. |
| `AdminManages.QueryEmail` | src/controllers/admin.manages.js:22 | Models the fallback from email to null: the address when it is a non-empty string, otherwise `null`. |
| `AdminManages.Uniqueness` | src/controllers/admin.manages.js:21-23 | Builds the `$or` filter from the body's teacherId and the email-or-null fallback of `QueryEmail`. |
| `AdminManages.UniquenessMatches` | src/controllers/admin.manages.js:21-23 | A stored teacher matches the filter iff it has the body's teacherId; or, for a non-empty body email, that same address; or, for a missing, `null` or `""` body email, no address at all. |
| `AdminManages.ScheduleOrEmpty` | src/controllers/admin.manages.js:36 | Models the fallback of schedule to `{}`: a truthy schedule is kept, and anything else becomes the empty object, so the stored schedule is always truthy. |
| `AdminManages.NewTeacher` | src/controllers/admin.manages.js:30-37 | The new document keeps the given ids, name and email. Its password is the plaintext as given. classes defaults to [], schedule to {} when falsy, and createdAt is the creation time. |
| `AdminManages.TeacherView` | src/controllers/admin.manages.js:42-50 | The response has exactly id, teacherId, name, classes, schedule and createdAt, plus email when the document has one, and never password. Every value is the saved document's. A `null` email is sent as `null`, an address as that string. |
| `AdminManages.CreateTeacher` | src/controllers/admin.manages.js:11-51 | A missing teacherId, name or password gives 400. 409 happens iff some stored teacher matches the OR query. Every non-201 reply leaves the store unchanged. 201 appends exactly the new document and returns its sanitised view. The store invariants are preserved. |
| `AdminManages.NoEmailConflictsWithNoEmail` | src/controllers/admin.manages.js:21-28 | A body without a usable email conflicts with any stored teacher lacking an email. |
| `AdminManages.SaveFailsOnlyOnEmptyEmail` | src/controllers/admin.manages.js:21-39 | Once the query has passed, the modelled save fails with 500 iff the email is "" and a stored teacher also has "". |
| `TeacherRoute.CreateTeacherRoute` | src/routes/admin.manages.route.js:9 | The stages run in the order protect, adminOnly, createTeacher. A halting stage's status ends the request with the store unchanged. An admin reaches createTeacher, and its outcome is the route's outcome. |
| `TeacherRoute.NoTokenNoTeacher` | src/middleware/auth.middleware.js:36-39 | With no extractable token the route answers 401 and the store is unchanged. |
| `TeacherRoute.NoSecretNoTeacher` | src/middleware/auth.middleware.js:41-45 | With a token but no secret the route answers 500 and the store is unchanged. |
| `TeacherRoute.NonAdminNoTeacher` | src/middleware/auth.middleware.js:76-79 | A verified token whose role is not "admin" gets 403 and the store is unchanged. |
| `TeacherRoute.AdminReachesHandler` | src/middleware/auth.middleware.js:80 | A verified admin token yields exactly createTeacher's outcome. |
| `TeacherRoute.IssuedTokenNeverCreates` | src/middleware/auth.middleware.js:36-80 | A token signed from a register/login payload never creates a teacher, and the store is unchanged. When it verifies to that payload plus iat and exp, a non-empty token passes `protect` and gets exactly the 403 "Forbidden: admin access required" from `adminOnly`. Only an empty one gets the 401 for a missing token. |
| `TeacherRoute.LoginCookieNeverCreates` | src/controllers/admin.auth.controller.js:109-125 | The cookie set by a successful login, presented to the teacher route, never creates a teacher. A non-empty token in it gets exactly the 403 from `adminOnly`. |
| `Cors.CheckOrigin` | src/app.js:18-26 | It allows iff the origin is absent or empty, or equals "http://localhost:3000" or "https://www.dreamschools.in" exactly. Otherwise it rejects with "Not allowed by CORS". It reads nothing but the origin. |
| `Cors.NearMissesDenied` | src/app.js:11-14 | The apex domain, a trailing slash and another port are all rejected. |

## Left out

- `server.js` (dotenv, database connection, `app.listen`) is process plumbing.
- `src/utils/genrate.token.js` is left out. It refers to an undefined `admin` at module scope, so importing it would throw. No file imports it. Its payload (id, role, email, 7-day expiry) differs from the one the controllers sign.
- `src/routes/auth.route.js` only wires the three admin handlers to paths.
- Express dispatch, `express-async-handler` and the default error handler's rendering are left out. A thrown error is `Body.Thrown(message)` with the status set before the throw, or 500 when none was set.
- `TeacherModel.Save` reports errors by the leading words of the Mongoose and MongoDB messages only. The real messages go on to name the failing path, or the index and key, which nothing here inspects.
- Cookie serialisation, cookie-parser, `express.json` and `console.error` logging are left out.
- bcrypt is left out: salting, cost and timing. `Hasher.hash` is a deterministic function of the password and the cost.
- jsonwebtoken is left out: signature and expiry arithmetic and the clock. `TokenService.verify` returns `None` for every failure.
- Mongoose is left out: casting, `minimize` of empty objects, `_id` generation and `createdAt` defaults. The last two are inputs.
- The admin schema is not part of this model. The admin collection is a map keyed by email. `_id` uniqueness is not modelled.
- Errors from `findOne`, `bcrypt` or `jwt.sign` (the catch-all 500 "Server error") are modelled only for the admin insert, as `Insert.StoreFailure`.
- Concurrent teacher creations are not modelled. `Save` checks the indexes against the store the request sees.
- AdminManages.CreateTeacher: teacher store failures other than schema validation and the two unique indexes, such as a lost connection or a write error in `findOne` or `save`, are not modelled. In the program they also end in a 500, with a different error, so "every 500 is the duplicate-key error" holds only for the modelled store.
- Request fields that are not strings (numbers, arrays, objects) and the `String(...)` conversion of them are not modelled. An undefined `req.body` in `createTeacher` is not modelled either.
- A repeated `token` query parameter (an array) is not modelled.
- The `cors` library's mechanics beyond the origin callback are left out.
- JsString.ToLowerCase: only ASCII letters are lowered. Full Unicode case mapping is left out, including the mappings that change the length (such as U+0130 becoming two code units) and letters like "É", which stay unchanged here.
- JsString.LowerCaseAt: the per-character mapping is the ASCII one, not JavaScript's full Unicode `toLowerCase`, for the same reason.
- NormalizeEmail: `toLowerCase` is modelled for ASCII letters only, because full Unicode case mapping is out of scope. Non-ASCII letters are left unchanged.

=== FILE: admin_auth.dfy ===
/**
 * Admin registration, login and logout: each handler is a function from the
 * configuration, the request body and the admin store to the response and
 * the store afterwards.  The admin store is a map keyed by the normalised
 * email, which makes the schema's unique email index hold by construction.
 */
module AdminAuth {
  import opened Wrappers
  import opened Json
  import opened Http
  import opened Crypto
  import JsString

  /** bcrypt cost factor used at registration. */
  const SaltRounds: nat := 12
  /** `expiresIn` of every session token issued here. */
  const TokenLifetime := "1d"
  /** Cookie lifetime in milliseconds, one day, matching the token's. */
  const OneDayMillis := 24 * 60 * 60 * 1000

  const MissingRegisterFields := "Name, email and password are required"
  const MissingLoginFields := "Email and password are required"
  const EmailTaken := "Email already registered"
  const ServerError := "Server error"

  /** The single reply for an unknown email and for a wrong password alike. */
  const InvalidCredentials: Response := Reply(401, "Invalid credentials")

  /** A stored admin account; `password` holds the bcrypt hash. */
  datatype Admin = Admin(
    id: string,
    name: string,
    email: string,
    password: string,
    createdAt: Option<int>)

  type AdminStore = map<string, Admin>

  /** `String(email).trim().toLowerCase()`: the key is trimmed and already
      lower-case. */
  function NormalizeEmail(email: string): (r: string)
    ensures JsString.Trimmed(r)
    ensures JsString.ToLowerCase(r) == r
  {
    var t := JsString.Trim(email);
    JsString.LowerKeepsTrimmed(t);
    JsString.LowerCaseIdempotent(t);
    JsString.ToLowerCase(t)
  }

  /** Every account is filed under its own, already normalised, email. */
  predicate ValidStore(s: AdminStore) {
    forall k :: k in s ==> s[k].email == k && NormalizeEmail(k) == k
  }

  datatype RegisterBody = RegisterBody(name: Option<string>, email: Option<string>, password: Option<string>)

  datatype LoginBody = LoginBody(email: Option<string>, password: Option<string>)

  /** What `adminModel.create` does: it inserts, fails with a duplicate-key
      error (code 11000: an account with the same email was inserted
      concurrently, after the existence check), or fails otherwise.  The
      inserted document's `_id` and `createdAt` come from the store. */
  datatype Insert = Inserted(id: string, createdAt: Option<int>) | DuplicateKey | StoreFailure

  datatype Outcome = Outcome(response: Response, store: AdminStore)

  /** Registration reaches `adminModel.create` and the insert goes through. */
  predicate Creates(body: RegisterBody, store: AdminStore, insert: Insert) {
    RegisterComplete(body) && NormalizeEmail(body.email.value) !in store && insert.Inserted?
  }

  predicate RegisterComplete(body: RegisterBody) {
    JsString.Truthy(body.name) && JsString.Truthy(body.email) && JsString.Truthy(body.password)
  }

  predicate LoginComplete(body: LoginBody) {
    JsString.Truthy(body.email) && JsString.Truthy(body.password)
  }

  /** The account registration creates from a complete body. */
  function NewAdmin(hasher: Hasher, body: RegisterBody, id: string, createdAt: Option<int>): (a: Admin)
    requires RegisterComplete(body)
    ensures a.email == NormalizeEmail(body.email.value)
    ensures a.name == JsString.Trim(body.name.value)
    ensures a.password == hasher.hash(body.password.value, SaltRounds)
    ensures a.id == id && a.createdAt == createdAt
  {
    Admin(id, JsString.Trim(body.name.value), NormalizeEmail(body.email.value),
          hasher.hash(body.password.value, SaltRounds), createdAt)
  }

  /** The claims of every token register and login issue: no `role`. */
  function TokenPayload(a: Admin): (p: Payload)
    ensures p.Keys == {"id", "name", "email"}
    ensures "role" !in p
    ensures p["id"] == JStr(a.id) && p["name"] == JStr(a.name) && p["email"] == JStr(a.email)
  {
    map["id" := JStr(a.id), "name" := JStr(a.name), "email" := JStr(a.email)]
  }

  /** The session cookie carrying a freshly signed one-day token for `a`. */
  function SessionCookie(cfg: Config, tokens: TokenService, a: Admin): (c: Cookie)
    requires SecretConfigured(cfg)
    ensures c.name == TokenCookie
    ensures c.value == tokens.sign(TokenPayload(a), cfg.jwtSecret.value, TokenLifetime)
    ensures c.options == CookieProfile(cfg, OneDayMillis)
  {
    Cookie(TokenCookie, tokens.sign(TokenPayload(a), cfg.jwtSecret.value, TokenLifetime),
           CookieProfile(cfg, OneDayMillis))
  }

  /** The sanitised account returned by registration: the same three fields
      the token carries. */
  function RegisteredView(a: Admin): (v: map<string, Value>)
    ensures v.Keys == {"id", "name", "email"}
    ensures "password" !in v
    ensures v["id"] == JStr(a.id) && v["name"] == JStr(a.name) && v["email"] == JStr(a.email)
  {
    TokenPayload(a)
  }

  /** The sanitised account returned by login; `createdAt` is dropped by
      `JSON.stringify` when it is undefined. */
  function LoginView(a: Admin): (v: map<string, Value>)
    ensures v.Keys == {"id", "name", "email"} + (if a.createdAt.Some? then {"createdAt"} else {})
    ensures "password" !in v
    ensures v["id"] == JStr(a.id) && v["name"] == JStr(a.name) && v["email"] == JStr(a.email)
    ensures a.createdAt.Some? ==> v["createdAt"] == JDate(a.createdAt.value)
  {
    match a.createdAt
    case Some(t) => RegisteredView(a)["createdAt" := JDate(t)]
    case None => RegisteredView(a)
  }

  /** POST /auth/admin/register. */
  function Register(cfg: Config, hasher: Hasher, tokens: TokenService,
                    body: RegisterBody, store: AdminStore, insert: Insert): (r: Outcome)
    ensures !RegisterComplete(body) ==> r == Outcome(Reply(400, MissingRegisterFields), store)
    ensures r.response.status == 409 ==> r == Outcome(Reply(409, EmailTaken), store)
    ensures r.response.cookie.Some? <==> r.response.status == 201
    ensures r.response.status in {201, 400, 409, 500}
  {
    if !RegisterComplete(body) then Outcome(Reply(400, MissingRegisterFields), store)
    else
      var email := NormalizeEmail(body.email.value);
      if email in store then Outcome(Reply(409, EmailTaken), store)
      else
        match insert
        case DuplicateKey => Outcome(Reply(409, EmailTaken), store)
        case StoreFailure => Outcome(Reply(500, ServerError), store)
        case Inserted(id, createdAt) =>
          var admin := NewAdmin(hasher, body, id, createdAt);
          var stored := store[email := admin];
          if !SecretConfigured(cfg) then Outcome(Reply(500, Misconfigured), stored)
          else
            var json := JObj(map["message" := JStr("Admin registered successfully"),
                                 "admin" := JObj(RegisteredView(admin))]);
            Outcome(Response(201, Sent(json), Some(SessionCookie(cfg, tokens, admin))), stored)
  }

  /** A complete registration conflicts exactly when the normalised email is
      already filed, or a concurrent insert of it wins the unique index. */
  lemma RegisterConflicts(cfg: Config, hasher: Hasher, tokens: TokenService,
                          body: RegisterBody, store: AdminStore, insert: Insert)
    ensures Register(cfg, hasher, tokens, body, store, insert).response.status == 409 <==>
              RegisterComplete(body)
              && (NormalizeEmail(body.email.value) in store || insert.DuplicateKey?)
  {
  }

  /** The account is created exactly when the body is complete, the
      normalised email is free and the insert goes through; nothing else
      changes the store. */
  lemma RegisterStoreEffect(cfg: Config, hasher: Hasher, tokens: TokenService,
                            body: RegisterBody, store: AdminStore, insert: Insert)
    ensures var r := Register(cfg, hasher, tokens, body, store, insert);
            if Creates(body, store, insert) then
              r.store == store[NormalizeEmail(body.email.value) := NewAdmin(hasher, body, insert.id, insert.createdAt)]
            else
              r.store == store
  {
  }

  /** The secret is only looked at after the insert: without one the account
      exists but the reply is a 500 and no cookie is set. */
  lemma RegisterChecksSecretLast(cfg: Config, hasher: Hasher, tokens: TokenService,
                                 body: RegisterBody, store: AdminStore, insert: Insert)
    requires Creates(body, store, insert) && !SecretConfigured(cfg)
    ensures var r := Register(cfg, hasher, tokens, body, store, insert);
            && r.response == Reply(500, Misconfigured)
            && NormalizeEmail(body.email.value) in r.store
  {
  }

  /** Registration succeeds exactly when the account is created and a secret
      is configured; the reply carries the session cookie and the sanitised
      account. */
  lemma RegisterSucceeds(cfg: Config, hasher: Hasher, tokens: TokenService,
                         body: RegisterBody, store: AdminStore, insert: Insert)
    ensures var r := Register(cfg, hasher, tokens, body, store, insert);
            && (r.response.status == 201 <==> Creates(body, store, insert) && SecretConfigured(cfg))
            && (r.response.status == 201 ==>
                  var a := r.store[NormalizeEmail(body.email.value)];
                  && r.response.cookie == Some(SessionCookie(cfg, tokens, a))
                  && SentObject(r.response, "admin") == Some(RegisteredView(a)))
  {
  }

  /** POST /auth/admin/login.  Login only reads the store. */
  function Login(cfg: Config, hasher: Hasher, tokens: TokenService,
                 body: LoginBody, store: AdminStore): (r: Response)
    ensures !LoginComplete(body) ==> r == Reply(400, MissingLoginFields)
    ensures r.status == 401 ==> r == InvalidCredentials
    ensures r.cookie.Some? <==> r.status == 200
    ensures r.status in {200, 400, 401, 500}
  {
    if !LoginComplete(body) then Reply(400, MissingLoginFields)
    else
      var email := NormalizeEmail(body.email.value);
      if email !in store then InvalidCredentials
      else
        var admin := store[email];
        if !hasher.compare(body.password.value, admin.password) then InvalidCredentials
        else if !SecretConfigured(cfg) then Reply(500, Misconfigured)
        else
          var json := JObj(map["message" := JStr("Logged in successfully"),
                               "admin" := JObj(LoginView(admin))]);
          Response(200, Sent(json), Some(SessionCookie(cfg, tokens, admin)))
  }

  /** An unknown email and a wrong password both get the one generic 401. */
  lemma LoginRejects(cfg: Config, hasher: Hasher, tokens: TokenService,
                     body: LoginBody, store: AdminStore)
    requires LoginComplete(body)
    requires var email := NormalizeEmail(body.email.value);
             email !in store || !hasher.compare(body.password.value, store[email].password)
    ensures Login(cfg, hasher, tokens, body, store) == InvalidCredentials
  {
  }

  /** Login succeeds exactly when the normalised email is filed, the password
      matches its hash and a secret is configured; the reply carries the
      session cookie and the sanitised account. */
  lemma LoginSucceeds(cfg: Config, hasher: Hasher, tokens: TokenService,
                      body: LoginBody, store: AdminStore)
    ensures var r := Login(cfg, hasher, tokens, body, store);
            && (r.status == 200 <==>
                  && LoginComplete(body)
                  && NormalizeEmail(body.email.value) in store
                  && hasher.compare(body.password.value, store[NormalizeEmail(body.email.value)].password)
                  && SecretConfigured(cfg))
            && (r.status == 200 ==>
                  var a := store[NormalizeEmail(body.email.value)];
                  && r.cookie == Some(SessionCookie(cfg, tokens, a))
                  && SentObject(r, "admin") == Some(LoginView(a)))
  {
  }

  /** POST /auth/logout: overwrites the session cookie with an expired empty one. */
  function Logout(cfg: Config): (r: Response)
    ensures r.status == 200
    ensures r.body == Sent(Json.Message("Logged out"))
    ensures r.cookie.Some? && r.cookie.value.name == TokenCookie
    ensures r.cookie.value.value == "" && r.cookie.value.options == CookieProfile(cfg, 0)
  {
    Response(200, Sent(Json.Message("Logged out")),
             Some(Cookie(TokenCookie, "", CookieProfile(cfg, 0))))
  }

  // ------------------------------------------------------ normalisation

  lemma NormalizeIsTrimmedLowerCase(email: string)
    ensures NormalizeEmail(email) == JsString.Trim(JsString.ToLowerCase(email))
  {
    JsString.TrimLowerCommute(email);
  }

  lemma NormalizeIdempotent(email: string)
    ensures NormalizeEmail(NormalizeEmail(email)) == NormalizeEmail(email)
  {
    var t := JsString.Trim(email);
    var l := JsString.ToLowerCase(t);
    JsString.TrimLowerCommute(t);
    JsString.TrimIdempotent(email);
    JsString.LowerCaseIdempotent(t);
    assert JsString.Trim(l) == JsString.ToLowerCase(JsString.Trim(t)) == l;
  }

  /** Emails that differ only in letter case normalise alike. */
  lemma NormalizeIgnoresCase(x: string, y: string)
    requires JsString.ToLowerCase(x) == JsString.ToLowerCase(y)
    ensures NormalizeEmail(x) == NormalizeEmail(y)
  {
    NormalizeIsTrimmedLowerCase(x);
    NormalizeIsTrimmedLowerCase(y);
  }

  /** Emails that differ only in surrounding white space normalise alike. */
  lemma NormalizeIgnoresPadding(a: string, x: string, b: string)
    requires JsString.AllWhiteSpace(a) && JsString.AllWhiteSpace(b)
    ensures NormalizeEmail(a + x + b) == NormalizeEmail(x)
  {
    JsString.TrimIgnoresPadding(a, x, b);
  }

  lemma SpacedLiteral()
    ensures " " + "A@x.com" + " " == " A@x.com "
  {
    var padded := " " + "A@x.com" + " ";
    forall i | 0 <= i < 9
      ensures padded[i] == " A@x.com "[i]
    {
      if 0 < i < 8 {
        assert padded[i] == "A@x.com"[i - 1];
      }
    }
  }

  lemma CaseVariantsLowerAlike()
    ensures JsString.ToLowerCase("A@x.com") == JsString.ToLowerCase("a@x.com")
  {
    var lu, ll := JsString.ToLowerCase("A@x.com"), JsString.ToLowerCase("a@x.com");
    forall i | 0 <= i < 7
      ensures lu[i] == ll[i]
    {
      assert JsString.LowerChar("A@x.com"[i]) == JsString.LowerChar("a@x.com"[i]);
    }
  }

  /** The example of a padded, upper-case spelling that collides. */
  lemma PaddedUpperCaseEmailCollides()
    ensures NormalizeEmail(" A@x.com ") == NormalizeEmail("a@x.com")
  {
    assert JsString.AllWhiteSpace(" ");
    NormalizeIgnoresPadding(" ", "A@x.com", " ");
    SpacedLiteral();
    CaseVariantsLowerAlike();
    NormalizeIgnoresCase("A@x.com", "a@x.com");
  }

  // ------------------------------------------------------ store invariant

  lemma RegisterPreservesValidStore(cfg: Config, hasher: Hasher, tokens: TokenService,
                                    body: RegisterBody, store: AdminStore, insert: Insert)
    requires ValidStore(store)
    ensures ValidStore(Register(cfg, hasher, tokens, body, store, insert).store)
  {
    RegisterStoreEffect(cfg, hasher, tokens, body, store, insert);
    if Creates(body, store, insert) {
      var a := NewAdmin(hasher, body, insert.id, insert.createdAt);
      NormalizeIdempotent(body.email.value);
      FilePreservesValidStore(store, a);
    }
  }

  /** Filing an account under its own normalised email keeps the store valid. */
  lemma FilePreservesValidStore(store: AdminStore, a: Admin)
    requires ValidStore(store)
    requires NormalizeEmail(a.email) == a.email
    ensures ValidStore(store[a.email := a])
  {
    var stored := store[a.email := a];
    forall k | k in stored
      ensures stored[k].email == k && NormalizeEmail(k) == k
    {
      if k == a.email {
        assert stored[k] == a;
      } else {
        assert k in store && stored[k] == store[k];
      }
    }
  }

  // ------------------------------------------------------ handler properties

  /** Registering an email that normalises like an already registered one is
      a conflict, and the store is left as it was. */
  lemma RegisterRejectsEquivalentEmail(cfg: Config, hasher: Hasher, tokens: TokenService,
                                       first: RegisterBody, second: RegisterBody,
                                       store: AdminStore, insert1: Insert, insert2: Insert)
    requires Creates(first, store, insert1)
    requires RegisterComplete(second)
    requires NormalizeEmail(second.email.value) == NormalizeEmail(first.email.value)
    ensures var s1 := Register(cfg, hasher, tokens, first, store, insert1).store;
            Register(cfg, hasher, tokens, second, s1, insert2) == Outcome(Reply(409, EmailTaken), s1)
  {
  }

  /** A registration followed by a login with the same password and any
      spelling of the email that normalises alike succeeds, and both
      report the same normalised email. */
  lemma RegisterThenLogin(cfg: Config, hasher: Hasher, tokens: TokenService,
                          reg: RegisterBody, login: LoginBody, store: AdminStore, insert: Insert)
    requires Creates(reg, store, insert) && SecretConfigured(cfg)
    requires LoginComplete(login)
    requires NormalizeEmail(login.email.value) == NormalizeEmail(reg.email.value)
    requires login.password == reg.password
    requires hasher.compare(reg.password.value, hasher.hash(reg.password.value, SaltRounds))
    ensures var reply := Register(cfg, hasher, tokens, reg, store, insert);
            var r := Login(cfg, hasher, tokens, login, reply.store);
            var a := NewAdmin(hasher, reg, insert.id, insert.createdAt);
            && reply.response.status == 201 && r.status == 200
            && SentObject(reply.response, "admin") == Some(RegisteredView(a))
            && SentObject(r, "admin") == Some(LoginView(a))
            && a.email == NormalizeEmail(login.email.value)
  {
    var reply := Register(cfg, hasher, tokens, reg, store, insert);
    var a := NewAdmin(hasher, reg, insert.id, insert.createdAt);
    RegisterSucceeds(cfg, hasher, tokens, reg, store, insert);
    RegisterStoreEffect(cfg, hasher, tokens, reg, store, insert);
    assert reply.store[a.email] == a;
    LoginSucceeds(cfg, hasher, tokens, login, reply.store);
  }

  /** An unknown email and a wrong password cannot be told apart. */
  lemma LoginHidesAccountExistence(cfg: Config, hasher: Hasher, tokens: TokenService,
                                   unknown: LoginBody, wrong: LoginBody, store: AdminStore)
    requires LoginComplete(unknown) && NormalizeEmail(unknown.email.value) !in store
    requires LoginComplete(wrong) && NormalizeEmail(wrong.email.value) in store
    requires !hasher.compare(wrong.password.value, store[NormalizeEmail(wrong.email.value)].password)
    ensures Login(cfg, hasher, tokens, unknown, store) == Login(cfg, hasher, tokens, wrong, store)
    ensures Login(cfg, hasher, tokens, unknown, store).status == 401
  {
    LoginRejects(cfg, hasher, tokens, unknown, store);
    LoginRejects(cfg, hasher, tokens, wrong, store);
  }

  /** Logout overwrites exactly the cookie login sets: same name and
      attributes, an empty value and a zero lifetime. */
  lemma LogoutClearsSessionCookie(cfg: Config, hasher: Hasher, tokens: TokenService,
                                  body: LoginBody, store: AdminStore)
    requires Login(cfg, hasher, tokens, body, store).status == 200
    ensures var issued := Login(cfg, hasher, tokens, body, store).cookie.value;
            var cleared := Logout(cfg).cookie.value;
            && cleared.name == issued.name
            && cleared.options == issued.options.(maxAge := 0)
            && issued.options.maxAge == OneDayMillis
  {
  }
}

=== FILE: admin_manages.dfy ===
/** Teacher creation by an admin (POST /api/admin/teachers). */
module AdminManages {
  import opened Wrappers
  import opened Json
  import opened Http
  import opened TeacherModel
  import JsString

  datatype TeacherBody = TeacherBody(
    teacherId: Option<string>,
    name: Option<string>,
    email: EmailField,
    password: Option<string>,
    classes: Option<seq<string>>,
    schedule: Option<Value>)

  /** What the store supplies for a new document: its `_id` and `Date.now()`. */
  datatype SaveEnv = SaveEnv(id: string, now: int)

  datatype Outcome = Outcome(response: Response, store: TeacherStore)

  const MissingFields := "teacherId, name and password are required"
  const TeacherExists := "Teacher with same teacherId or email already exists"

  predicate Complete(body: TeacherBody) {
    JsString.Truthy(body.teacherId) && JsString.Truthy(body.name) && JsString.Truthy(body.password)
  }

  /** `email || null`: a non-empty address, or `null` (`None`). */
  function QueryEmail(e: EmailField): (q: Option<string>)
    ensures q.Some? <==> e.Address? && e.address != ""
    ensures q.Some? ==> e == Address(q.value)
  {
    if e.Address? && e.address != "" then Some(e.address) else None
  }

  /** The uniqueness query for a complete body. */
  function Uniqueness(body: TeacherBody): Filter
    requires Complete(body)
  {
    Filter(body.teacherId.value, QueryEmail(body.email))
  }

  /** `schedule || {}`: a truthy schedule is kept, anything else becomes the
      empty object, so the stored schedule is never falsy. */
  function ScheduleOrEmpty(schedule: Option<Value>): (v: Value)
    ensures TruthyValue(v)
    ensures schedule.Some? && TruthyValue(schedule.value) ==> v == schedule.value
    ensures !(schedule.Some? && TruthyValue(schedule.value)) ==> v == JObj(map[])
  {
    if schedule.Some? && TruthyValue(schedule.value) then schedule.value else JObj(map[])
  }

  /** The document built from a complete body. */
  function NewTeacher(body: TeacherBody, env: SaveEnv): (t: Teacher)
    requires Complete(body)
    ensures HasRequired(t)
    ensures t.teacherId == body.teacherId.value && t.name == body.name.value
    ensures t.email == body.email
    ensures t.password == body.password.value
    ensures t.classes == body.classes.GetOr([])
    ensures t.schedule == ScheduleOrEmpty(body.schedule)
    ensures t.id == env.id && t.createdAt == env.now
  {
    Teacher(env.id, body.teacherId.value, body.name.value, body.email, body.password.value,
            body.classes.GetOr([]), ScheduleOrEmpty(body.schedule), env.now)
  }

  /** The sanitised teacher sent back; `JSON.stringify` drops an undefined email. */
  function TeacherView(t: Teacher): (v: map<string, Value>)
    ensures v.Keys == {"id", "teacherId", "name", "classes", "schedule", "createdAt"}
                      + (if t.email.Absent? then {} else {"email"})
    ensures "password" !in v
    ensures v["teacherId"] == JStr(t.teacherId) && v["name"] == JStr(t.name)
    ensures v["classes"] == Strings(t.classes) && v["schedule"] == t.schedule
    ensures v["id"] == JStr(t.id) && v["createdAt"] == JDate(t.createdAt)
    ensures t.email.Null? ==> v["email"] == JNull
    ensures t.email.Address? ==> v["email"] == JStr(t.email.address)
  {
    var base := map["id" := JStr(t.id), "teacherId" := JStr(t.teacherId), "name" := JStr(t.name),
                    "classes" := Strings(t.classes), "schedule" := t.schedule,
                    "createdAt" := JDate(t.createdAt)];
    match t.email
    case Absent => base
    case Null => base["email" := JNull]
    case Address(e) => base["email" := JStr(e)]
  }

  /** `createTeacher`. */
  function CreateTeacher(body: TeacherBody, store: TeacherStore, env: SaveEnv): (r: Outcome)
    ensures !Complete(body) ==> r == Outcome(Throw(400, MissingFields), store)
    ensures Complete(body) ==>
              (r.response.status == 409 <==> exists i :: 0 <= i < |store| && Matches(store[i], Uniqueness(body)))
    ensures r.response.status == 409 ==> r == Outcome(Throw(409, TeacherExists), store)
    ensures r.response.status == 500 ==> r == Outcome(Throw(500, DuplicateKeyError), store)
    ensures r.response.status != 201 ==> r.store == store
    ensures r.response.status == 201 ==>
              && Complete(body)
              && r.store == store + [NewTeacher(body, env)]
              && r.response == Response(201, Sent(JObj(TeacherView(NewTeacher(body, env)))), None)
    ensures r.response.status in {201, 400, 409, 500}
    ensures ValidStore(store) ==> ValidStore(r.store)
  {
    if !Complete(body) then Outcome(Throw(400, MissingFields), store)
    else if FindOne(store, Uniqueness(body)).Some? then Outcome(Throw(409, TeacherExists), store)
    else
      var teacher := NewTeacher(body, env);
      match Save(store, teacher)
      case Rejected(message) => Outcome(Throw(500, message), store)
      case Saved(stored) => Outcome(Response(201, Sent(JObj(TeacherView(teacher))), None), stored)
  }

  // ------------------------------------------------------------- lemmas

  /** A stored teacher matches the uniqueness query exactly when it has the
      body's teacherId, or, for a non-empty email, that same address, or, for
      a missing, null or empty email, no address at all. */
  lemma UniquenessMatches(body: TeacherBody, t: Teacher)
    requires Complete(body)
    ensures Matches(t, Uniqueness(body)) <==>
              || t.teacherId == body.teacherId.value
              || (if body.email.Address? && body.email.address != ""
                  then t.email == body.email
                  else !t.email.Address?)
  {
  }

  /** Without an email (missing, null or empty) the query asks for
      `email: null`, so a new teacher conflicts with any stored teacher
      that has no email either. */
  lemma NoEmailConflictsWithNoEmail(body: TeacherBody, store: TeacherStore, env: SaveEnv, i: int)
    requires Complete(body)
    requires body.email.Absent? || body.email.Null? || body.email == Address("")
    requires 0 <= i < |store| && !store[i].email.Address?
    ensures CreateTeacher(body, store, env) == Outcome(Throw(409, TeacherExists), store)
  {
    assert Matches(store[i], Uniqueness(body));
  }

  /** Once the uniqueness query has passed, `save` can still refuse the
      document, and does so exactly when its email is the empty string and
      another teacher already has the empty string: `""` is falsy, so the
      query looked for `null`, but the index holds `""`. */
  lemma SaveFailsOnlyOnEmptyEmail(body: TeacherBody, store: TeacherStore, env: SaveEnv)
    requires Complete(body)
    requires forall i :: 0 <= i < |store| ==> !Matches(store[i], Uniqueness(body))
    ensures CreateTeacher(body, store, env).response.status == 500 <==>
              body.email == Address("") && exists i :: 0 <= i < |store| && store[i].email == Address("")
  {
    var t := NewTeacher(body, env);
    if body.email == Address("") && exists i :: 0 <= i < |store| && store[i].email == Address("") {
      var i :| 0 <= i < |store| && store[i].email == Address("");
      assert Clash(store[i], t);
    } else {
      forall i | 0 <= i < |store|
        ensures !Clash(store[i], t)
      {
        assert !Matches(store[i], Uniqueness(body));
      }
    }
  }
}

=== FILE: auth_middleware.dfy ===
/**
 * The access gate: `protect` finds a bearer token, verifies it and
 * attaches the caller's identity; `adminOnly` admits only the admin role.
 */
module AuthMiddleware {
  import opened Wrappers
  import opened Json
  import opened Http
  import opened Crypto
  import opened JsString

  /** The parts of a request the gate reads: the `Authorization` header,
      the `token` cookie and the `token` query parameter. */
  datatype Request = Request(
    authorization: Option<string>,
    cookieToken: Option<string>,
    queryToken: Option<string>)

  /** `req.user`: the claims copied from a verified token; a claim the token
      lacks is `undefined` (`None`). */
  datatype User = User(id: Option<Value>, role: Option<Value>, email: Option<Value>, name: Option<Value>)

  /** The result of a middleware stage: it calls `next` with a value, or it
      stops the request by setting a status and throwing. */
  datatype Stage<+T> = Proceed(value: T) | Halt(status: int, message: string)

  const BearerPrefix := "Bearer "
  const NoToken := "Not authorized, no token"
  const TokenRejected := "Not authorized, token failed or expired"
  const NotAuthorized := "Not authorized"
  const AdminRequired := "Forbidden: admin access required"

  /** The header candidate: `authorization.split(" ")[1].trim()` for a header
      starting with "Bearer "; it may be empty. */
  function HeaderToken(authorization: Option<string>): (t: Option<string>)
    ensures t.Some? <==> authorization.Some? && StartsWith(authorization.value, BearerPrefix)
  {
    if Truthy(authorization) && StartsWith(authorization.value, BearerPrefix) then
      var h := authorization.value;
      assert h[6] == ' ';
      Some(Trim(Split(h, ' ')[1]))
    else None
  }

  /** The token `protect` goes on with: the header's if truthy, else the
      cookie's if truthy, else the query parameter's if truthy. */
  function ExtractToken(req: Request): (t: Option<string>)
    ensures Truthy(HeaderToken(req.authorization)) ==> t == HeaderToken(req.authorization)
    ensures !Truthy(HeaderToken(req.authorization)) && Truthy(req.cookieToken) ==> t == req.cookieToken
    ensures !Truthy(HeaderToken(req.authorization)) && !Truthy(req.cookieToken) && Truthy(req.queryToken)
            ==> t == req.queryToken
    ensures Truthy(t) <==> Truthy(HeaderToken(req.authorization)) || Truthy(req.cookieToken) || Truthy(req.queryToken)
  {
    var fromHeader := HeaderToken(req.authorization);
    var afterCookie := if !Truthy(fromHeader) && Truthy(req.cookieToken) then req.cookieToken else fromHeader;
    if !Truthy(afterCookie) && Truthy(req.queryToken) then req.queryToken else afterCookie
  }

  /** The projection of decoded claims onto `req.user`; every other claim
      (`iat`, `exp`, ...) is dropped. */
  function ClaimsUser(d: Payload): (u: User)
    ensures u.id == Get(d, "id") && u.role == Get(d, "role")
    ensures u.email == Get(d, "email") && u.name == Get(d, "name")
  {
    User(Get(d, "id"), Get(d, "role"), Get(d, "email"), Get(d, "name"))
  }

  /** `protect`. */
  function Protect(cfg: Config, tokens: TokenService, req: Request): (r: Stage<User>)
    ensures !Truthy(ExtractToken(req)) ==> r == Halt(401, NoToken)
    ensures Truthy(ExtractToken(req)) && !SecretConfigured(cfg) ==> r == Halt(500, Misconfigured)
    ensures Truthy(ExtractToken(req)) && SecretConfigured(cfg)
            && tokens.verify(ExtractToken(req).value, cfg.jwtSecret.value).None?
            ==> r == Halt(401, TokenRejected)
    ensures r.Proceed? <==>
              && Truthy(ExtractToken(req))
              && SecretConfigured(cfg)
              && tokens.verify(ExtractToken(req).value, cfg.jwtSecret.value).Some?
    ensures r.Proceed? ==>
              r.value == ClaimsUser(tokens.verify(ExtractToken(req).value, cfg.jwtSecret.value).value)
  {
    var token := ExtractToken(req);
    if !Truthy(token) then Halt(401, NoToken)
    else if !SecretConfigured(cfg) then Halt(500, Misconfigured)
    else
      match tokens.verify(token.value, cfg.jwtSecret.value)
      case None => Halt(401, TokenRejected)
      case Some(decoded) => Proceed(ClaimsUser(decoded))
  }

  predicate IsAdmin(u: User) {
    u.role == Some(JStr("admin"))
  }

  /** `adminOnly`: a pure role check on `req.user`. */
  function AdminOnly(user: Option<User>): (r: Stage<()>)
    ensures user.None? ==> r == Halt(401, NotAuthorized)
    ensures user.Some? && !IsAdmin(user.value) ==> r == Halt(403, AdminRequired)
    ensures r.Proceed? <==> user.Some? && IsAdmin(user.value)
  {
    if user.None? then Halt(401, NotAuthorized)
    else if !IsAdmin(user.value) then Halt(403, AdminRequired)
    else Proceed(())
  }

  // ------------------------------------------------------------- lemmas

  /** The header token is the text between "Bearer " and the next space,
      trimmed. */
  lemma HeaderTokenIsNextWord(rest: string)
    ensures HeaderToken(Some(BearerPrefix + rest)) == Some(Trim(rest[..IndexOf(rest, ' ')]))
  {
    var h := BearerPrefix + rest;
    assert StartsWith(h, BearerPrefix);
    assert h == "Bearer" + ([' '] + rest);
    SplitAfterPrefix("Bearer", [' '] + rest, ' ');
    assert ([' '] + rest)[1..] == rest;
    assert Split([' '] + rest, ' ') == [""] + Split(rest, ' ');
    assert Split(h, ' ')[1] == Split(rest, ' ')[0];
    SplitFirstIsPrefix(rest, ' ');
  }

  /** "Bearer " with nothing usable after it (e.g. "Bearer " or "Bearer  x")
      yields an empty header token, and extraction falls through to the
      cookie and then the query parameter as if there were no header. */
  lemma EmptyBearerFallsThrough(req: Request, rest: string)
    requires req.authorization == Some(BearerPrefix + rest)
    requires rest == [] || rest[0] == ' '
    ensures HeaderToken(req.authorization) == Some("")
    ensures ExtractToken(req) == (if Truthy(req.cookieToken) || Truthy(req.queryToken)
                                  then ExtractToken(req.(authorization := None))
                                  else Some(""))
  {
    HeaderTokenIsNextWord(rest);
    assert IndexOf(rest, ' ') == 0;
    assert rest[..0] == [];
    assert Trim([]) == [];
    assert !Truthy(HeaderToken(req.authorization));
    assert HeaderToken(None) == None;
  }

  /** A request without any token is refused before the secret is looked at. */
  lemma NoTokenCheckedBeforeSecret(cfg: Config, tokens: TokenService, req: Request)
    requires !Truthy(req.cookieToken) && !Truthy(req.queryToken)
    requires !Truthy(HeaderToken(req.authorization))
    ensures Protect(cfg, tokens, req) == Halt(401, NoToken)
  {
  }
}

=== FILE: cors.dfy ===
/** The CORS `origin` callback: which browser origins may call the API. */
module Cors {
  import opened Wrappers
  import JsString

  const AllowedOrigins: seq<string> := ["http://localhost:3000", "https://www.dreamschools.in"]

  /** `callback(null, true)` or `callback(new Error("Not allowed by CORS"))`. */
  datatype Verdict = Allow | Deny(error: string)

  const NotAllowed := "Not allowed by CORS"

  /** The decision depends on the `Origin` header alone. */
  function CheckOrigin(origin: Option<string>): (v: Verdict)
    ensures v.Allow? <==> !JsString.Truthy(origin)
                          || origin.value == "http://localhost:3000"
                          || origin.value == "https://www.dreamschools.in"
    ensures v.Deny? ==> v.error == NotAllowed
  {
    if !JsString.Truthy(origin) then Allow
    else if origin.value in AllowedOrigins then Allow
    else Deny(NotAllowed)
  }

  /** The apex domain and a trailing slash are different origins. */
  lemma NearMissesDenied()
    ensures CheckOrigin(Some("https://dreamschools.in")) == Deny(NotAllowed)
    ensures CheckOrigin(Some("https://www.dreamschools.in/")) == Deny(NotAllowed)
    ensures CheckOrigin(Some("http://localhost:3001")) == Deny(NotAllowed)
  {
  }
}

=== FILE: crypto.dfy ===
/**
 * The password hasher (bcrypt) and the token service (jsonwebtoken),
 * reduced to the functions the handlers call.  Both are parameters of the
 * handlers; no property of them is assumed except where a lemma says so.
 */
module Crypto {
  import opened Wrappers
  import opened Json

  /** A token's claims object. */
  type Payload = map<string, Value>

  /** `bcrypt.hash(password, rounds)` and `bcrypt.compare(password, hash)`. */
  datatype Hasher = Hasher(hash: (string, nat) -> string, compare: (string, string) -> bool)

  /** `jwt.sign(payload, secret, { expiresIn })` and `jwt.verify(token, secret)`;
      `verify` yields `None` for a bad signature, a malformed token or an
      expired one. */
  datatype TokenService = TokenService(
    sign: (Payload, string, string) -> string,
    verify: (string, string) -> Option<Payload>)

  /** The claims a verified token decodes to: the signed payload plus the
      registered `iat` and `exp` claims that signing adds. */
  function Stamped(p: Payload, iat: int, exp: int): (d: Payload)
    ensures d.Keys == p.Keys + {"iat", "exp"}
    ensures forall k :: k in p && k != "iat" && k != "exp" ==> d[k] == p[k]
  {
    p["iat" := JNum(iat)]["exp" := JNum(exp)]
  }
}

=== FILE: http.dfy ===
/** Process configuration, cookies and responses as the handlers produce them. */
module Http {
  import opened Wrappers
  import opened Json
  import JsString

  /** The environment variables the handlers read on every request. */
  datatype Config = Config(jwtSecret: Option<string>, nodeEnv: Option<string>)

  /** `!process.env.JWT_SECRET` is false: the variable is set and non-empty. */
  predicate SecretConfigured(cfg: Config) {
    JsString.Truthy(cfg.jwtSecret)
  }

  predicate IsProduction(cfg: Config) {
    cfg.nodeEnv == Some("production")
  }

  /** The reply, from any handler, when the signing secret is not set. */
  const Misconfigured := "Server misconfiguration"

  datatype CookieOptions = CookieOptions(
    httpOnly: bool,
    secure: bool,
    maxAge: int,
    sameSite: string,
    path: string)

  datatype Cookie = Cookie(name: string, value: string, options: CookieOptions)

  /** The name of the session cookie. */
  const TokenCookie := "token"

  /** The attribute profile shared by issuing and clearing the session cookie:
      secure and cross-site only in production. */
  function CookieProfile(cfg: Config, maxAge: int): (o: CookieOptions)
    ensures o.httpOnly && o.path == "/" && o.maxAge == maxAge
    ensures o.secure <==> IsProduction(cfg)
    ensures o.sameSite == (if IsProduction(cfg) then "None" else "Lax")
  {
    var prod := IsProduction(cfg);
    CookieOptions(true, prod, maxAge, if prod then "None" else "Lax", "/")
  }

  /** What reaches the client: a JSON body sent with `res.json`, or an Error
      thrown to Express (whose rendering is not modelled). */
  datatype Body = Sent(json: Value) | Thrown(message: string)

  datatype Response = Response(status: int, body: Body, cookie: Option<Cookie>)

  /** `res.status(status).json({ message })` without a cookie. */
  function Reply(status: int, message: string): Response {
    Response(status, Sent(Json.Message(message)), None)
  }

  /** `res.status(status); throw new Error(message)`. */
  function Throw(status: int, message: string): Response {
    Response(status, Thrown(message), None)
  }

  /** The object sent under `key` in a JSON response body, if any. */
  function SentObject(r: Response, key: string): Option<map<string, Value>> {
    if r.body.Sent? && r.body.json.JObj? && key in r.body.json.fields
       && r.body.json.fields[key].JObj?
    then Some(r.body.json.fields[key].fields)
    else None
  }
}

=== FILE: js_string.dfy ===
/**
 * The JavaScript string operations the request handlers rely on:
 * truthiness, `String.prototype.trim`, `String.prototype.toLowerCase`,
 * `String.prototype.startsWith` and `String.prototype.split` with a
 * one-character separator.
 */
module JsString {
  import opened Wrappers

  /** A string-valued field is truthy exactly when it is present and non-empty;
      `None` stands for `undefined` and `null`, which are both falsy. */
  predicate Truthy(s: Option<string>) {
    s.Some? && s.value != ""
  }

  /** The characters `trim` removes: ECMAScript WhiteSpace and LineTerminator. */
  predicate IsWhiteSpace(c: char) {
    || c == ' ' || c == '\t' || c == '\n' || c == '\r'
    || c == '\U{000B}' || c == '\U{000C}' || c == '\U{00A0}' || c == '\U{1680}'
    || ('\U{2000}' <= c <= '\U{200A}')
    || c == '\U{2028}' || c == '\U{2029}' || c == '\U{202F}' || c == '\U{205F}'
    || c == '\U{3000}' || c == '\U{FEFF}'
  }

  predicate AllWhiteSpace(s: string) {
    forall i :: 0 <= i < |s| ==> IsWhiteSpace(s[i])
  }

  /** Neither starts nor ends with white space: what `trim` produces. */
  predicate Trimmed(s: string) {
    s == [] || (!IsWhiteSpace(s[0]) && !IsWhiteSpace(s[|s| - 1]))
  }

  /** Removes leading white space. */
  function TrimStart(s: string): string {
    if s != [] && IsWhiteSpace(s[0]) then TrimStart(s[1..]) else s
  }

  /** Removes trailing white space. */
  function TrimEnd(s: string): string {
    if s != [] && IsWhiteSpace(s[|s| - 1]) then TrimEnd(s[..|s| - 1]) else s
  }

  /** `s.trim()`: the infix of `s` left once white space is stripped from both
      ends (`TrimCore` shows what surrounds it). */
  function Trim(s: string): (r: string)
    ensures Trimmed(r)
    ensures |r| <= |s|
  {
    StripBothTrimmed(s);
    TrimEnd(TrimStart(s))
  }

  /** Lower-cases one character: ASCII letters only, so this is not the full
      Unicode case mapping of `toLowerCase`. */
  function LowerChar(c: char): char {
    if 'A' <= c <= 'Z' then (c as int + 32) as char else c
  }

  /** `s.toLowerCase()` restricted to ASCII letters: the same length, each
      character lower-cased in place. */
  function ToLowerCase(s: string): (r: string)
    ensures |r| == |s|
  {
    if s == [] then [] else [LowerChar(s[0])] + ToLowerCase(s[1..])
  }

  predicate StartsWith(s: string, prefix: string) {
    |prefix| <= |s| && s[..|prefix|] == prefix
  }

  /** `s.split(sep)` for a one-character separator: the maximal separator-free
      pieces of `s`, in order; there is always at least one piece. */
  function Split(s: string, sep: char): (parts: seq<string>)
    ensures |parts| >= 1
    ensures forall i :: 0 <= i < |parts| ==> sep !in parts[i]
    ensures StartsWith(s, parts[0])
    ensures |parts[0]| < |s| ==> s[|parts[0]|] == sep
    ensures |parts| == 1 <==> sep !in s
  {
    if s == [] then [""]
    else
      var rest := Split(s[1..], sep);
      if s[0] == sep then [""] + rest
      else [[s[0]] + rest[0]] + rest[1..]
  }

  /** `parts.join(sep)`: the inverse of `Split`. */
  function Join(parts: seq<string>, sep: char): string
    requires |parts| >= 1
  {
    if |parts| == 1 then parts[0] else parts[0] + [sep] + Join(parts[1..], sep)
  }

  /** The index of the first `sep` in `s`, or `|s|` when there is none. */
  function IndexOf(s: string, sep: char): (k: nat)
    ensures k <= |s|
    ensures sep !in s[..k]
    ensures k < |s| ==> s[k] == sep
  {
    if s == [] || s[0] == sep then 0 else 1 + IndexOf(s[1..], sep)
  }

  // ---------------------------------------------------------------- Split

  lemma {:induction false} JoinSplit(s: string, sep: char)
    ensures Join(Split(s, sep), sep) == s
    decreases |s|
  {
    if s != [] {
      var rest := Split(s[1..], sep);
      JoinSplit(s[1..], sep);
      if s[0] == sep {
        assert Split(s, sep) == [""] + rest;
        assert ([""] + rest)[1..] == rest;
      } else {
        var parts := Split(s, sep);
        assert parts == [[s[0]] + rest[0]] + rest[1..];
        if |rest| == 1 {
          assert parts == [[s[0]] + rest[0]];
        } else {
          assert parts[1..] == rest[1..];
          assert Join(rest, sep) == rest[0] + [sep] + Join(rest[1..], sep);
        }
      }
    }
  }

  /** Splitting after a separator-free prefix glues the prefix onto the first piece. */
  lemma {:induction false} SplitAfterPrefix(x: string, y: string, sep: char)
    requires sep !in x
    ensures Split(x + y, sep) == [x + Split(y, sep)[0]] + Split(y, sep)[1..]
    decreases |x|
  {
    if x != [] {
      assert (x + y)[0] == x[0];
      assert (x + y)[1..] == x[1..] + y;
      SplitAfterPrefix(x[1..], y, sep);
      assert [x[0]] + (x[1..] + Split(y, sep)[0]) == x + Split(y, sep)[0];
    } else {
      var parts := Split(y, sep);
      assert x + y == y;
      assert x + parts[0] == parts[0];
      assert [parts[0]] + parts[1..] == parts;
    }
  }

  lemma {:induction false} SplitJoin(parts: seq<string>, sep: char)
    requires |parts| >= 1
    requires forall i :: 0 <= i < |parts| ==> sep !in parts[i]
    ensures Split(Join(parts, sep), sep) == parts
    decreases |parts|
  {
    if |parts| == 1 {
      SplitAfterPrefix(parts[0], "", sep);
      assert parts[0] + "" == parts[0];
    } else {
      var tail := Join(parts[1..], sep);
      SplitJoin(parts[1..], sep);
      assert Join(parts, sep) == parts[0] + ([sep] + tail);
      SplitAfterPrefix(parts[0], [sep] + tail, sep);
      assert ([sep] + tail)[1..] == tail;
      assert Split([sep] + tail, sep) == [""] + parts[1..];
      assert parts[0] + "" == parts[0];
    }
  }

  /** The first piece of a split is the text before the first separator. */
  lemma SplitFirstIsPrefix(s: string, sep: char)
    ensures Split(s, sep)[0] == s[..IndexOf(s, sep)]
  {
  }

  // ---------------------------------------------------------------- trim

  lemma {:induction false} TrimStartOfPadded(a: string, x: string)
    requires AllWhiteSpace(a)
    requires x == [] || !IsWhiteSpace(x[0])
    ensures TrimStart(a + x) == x
    decreases |a|
  {
    if a == [] {
      assert a + x == x;
    } else {
      assert (a + x)[1..] == a[1..] + x;
      TrimStartOfPadded(a[1..], x);
    }
  }

  lemma {:induction false} TrimEndOfPadded(x: string, b: string)
    requires AllWhiteSpace(b)
    requires x == [] || !IsWhiteSpace(x[|x| - 1])
    ensures TrimEnd(x + b) == x
    decreases |b|
  {
    if b == [] {
      assert x + b == x;
    } else {
      assert (x + b)[..|x + b| - 1] == x + b[..|b| - 1];
      TrimEndOfPadded(x, b[..|b| - 1]);
    }
  }

  /** `trim` strips exactly the white space around a trimmed core. */
  lemma TrimOfPadded(a: string, m: string, b: string)
    requires AllWhiteSpace(a) && AllWhiteSpace(b) && Trimmed(m)
    ensures Trim(a + m + b) == m
  {
    if m == [] {
      assert a + m + b == (a + b) + [];
      TrimStartOfPadded(a + b, []);
      assert AllWhiteSpace(a + b);
    } else {
      assert a + m + b == a + (m + b);
      TrimStartOfPadded(a, m + b);
      TrimEndOfPadded(m, b);
    }
  }

  /** `TrimStart` drops a run of white space and stops at the first other character. */
  lemma {:induction false} TrimStartDrops(s: string) returns (k: nat)
    ensures k <= |s| && TrimStart(s) == s[k..]
    ensures AllWhiteSpace(s[..k])
    ensures k == |s| || !IsWhiteSpace(s[k])
    decreases |s|
  {
    if s != [] && IsWhiteSpace(s[0]) {
      var t := s[1..];
      var j := TrimStartDrops(t);
      k := j + 1;
      assert TrimStart(s) == TrimStart(t) == t[j..];
      assert t[j..] == s[k..];
      assert j == |t| || s[k] == t[j];
      assert s[..k] == [s[0]] + t[..j];
      AllWhiteSpaceAppend([s[0]], t[..j]);
    } else {
      k := 0;
    }
  }

  /** `TrimEnd` drops a run of white space and stops at the last other character. */
  lemma {:induction false} TrimEndDrops(s: string) returns (k: nat)
    ensures k <= |s| && TrimEnd(s) == s[..k]
    ensures AllWhiteSpace(s[k..])
    ensures k == 0 || !IsWhiteSpace(s[k - 1])
    decreases |s|
  {
    if s != [] && IsWhiteSpace(s[|s| - 1]) {
      var n := |s| - 1;
      var t := s[..n];
      k := TrimEndDrops(t);
      assert TrimEnd(s) == TrimEnd(t) == t[..k];
      assert t[..k] == s[..k];
      assert k == 0 || s[k - 1] == t[k - 1];
      assert s[k..] == t[k..] + [s[n]];
      AllWhiteSpaceAppend(t[k..], [s[n]]);
    } else {
      k := |s|;
    }
  }

  /** Stripping both ends leaves neither end white. */
  lemma StripBothTrimmed(s: string)
    ensures Trimmed(TrimEnd(TrimStart(s)))
    ensures |TrimEnd(TrimStart(s))| <= |s|
  {
    var i := TrimStartDrops(s);
    var u := s[i..];
    var j := TrimEndDrops(u);
    var t := u[..j];
    assert TrimEnd(TrimStart(s)) == t;
    assert t == [] || (t[0] == s[i] && t[|t| - 1] == u[j - 1]);
  }

  /** Every string is its trimmed core between two runs of white space. */
  lemma TrimCore(s: string) returns (a: string, b: string)
    ensures AllWhiteSpace(a) && AllWhiteSpace(b)
    ensures s == a + Trim(s) + b
  {
    var i := TrimStartDrops(s);
    var u := s[i..];
    var j := TrimEndDrops(u);
    var t := u[..j];
    assert Trim(s) == t;
    a, b := s[..i], u[j..];
    assert u == t + b;
    assert s == a + u;
    Regroup3(a, t, b);
  }

  lemma AllWhiteSpaceAppend(x: string, y: string)
    requires AllWhiteSpace(x) && AllWhiteSpace(y)
    ensures AllWhiteSpace(x + y)
  {
    forall i | 0 <= i < |x + y|
      ensures IsWhiteSpace((x + y)[i])
    {
      if i < |x| {
        assert (x + y)[i] == x[i];
      } else {
        assert (x + y)[i] == y[i - |x|];
      }
    }
  }

  lemma Regroup3(a: string, t: string, b: string)
    ensures a + (t + b) == a + t + b
  {
  }

  lemma Regroup(a: string, a': string, t: string, b': string, b: string)
    ensures a + (a' + t + b') + b == (a + a') + t + (b' + b)
  {
  }

  /** Surrounding white space does not change the result of `trim`. */
  lemma TrimIgnoresPadding(a: string, x: string, b: string)
    requires AllWhiteSpace(a) && AllWhiteSpace(b)
    ensures Trim(a + x + b) == Trim(x)
  {
    var t := Trim(x);
    var a', b' := TrimCore(x);
    AllWhiteSpaceAppend(a, a');
    AllWhiteSpaceAppend(b', b);
    Regroup(a, a', t, b', b);
    TrimOfPadded(a + a', t, b' + b);
  }

  lemma TrimIdempotent(s: string)
    ensures Trim(Trim(s)) == Trim(s)
  {
    var t, e := Trim(s), "";
    assert AllWhiteSpace(e);
    assert e + t + e == t;
    TrimOfPadded(e, t, e);
  }

  // ----------------------------------------------------------- lower case

  /** `toLowerCase` maps each character in place. */
  lemma {:induction false} LowerCaseAt(s: string)
    ensures forall i :: 0 <= i < |s| ==> ToLowerCase(s)[i] == LowerChar(s[i])
    decreases |s|
  {
    if s != [] {
      LowerCaseAt(s[1..]);
      var l := ToLowerCase(s);
      assert l == [LowerChar(s[0])] + ToLowerCase(s[1..]);
      forall i | 1 <= i < |s|
        ensures l[i] == LowerChar(s[i])
      {
        assert l[i] == ToLowerCase(s[1..])[i - 1];
        assert s[i] == s[1..][i - 1];
      }
    }
  }

  lemma LowerCaseIdempotent(s: string)
    ensures ToLowerCase(ToLowerCase(s)) == ToLowerCase(s)
  {
    var l := ToLowerCase(s);
    LowerCaseAt(s);
    LowerCaseAt(l);
    assert forall i :: 0 <= i < |l| ==> ToLowerCase(l)[i] == l[i];
  }

  /** No white-space character is an upper-case letter. */
  lemma LowerCharKeepsWhiteSpace(c: char)
    ensures IsWhiteSpace(LowerChar(c)) == IsWhiteSpace(c)
  {
  }

  /** Lower-casing keeps a trimmed string trimmed. */
  lemma LowerKeepsTrimmed(t: string)
    requires Trimmed(t)
    ensures Trimmed(ToLowerCase(t))
  {
    if t != [] {
      LowerCaseAt(t);
      LowerCharKeepsWhiteSpace(t[0]);
      LowerCharKeepsWhiteSpace(t[|t| - 1]);
    }
  }

  lemma {:induction false} TrimStartLowerCommute(s: string)
    ensures ToLowerCase(TrimStart(s)) == TrimStart(ToLowerCase(s))
    decreases |s|
  {
    if s != [] {
      var l := ToLowerCase(s);
      assert l == [LowerChar(s[0])] + ToLowerCase(s[1..]);
      LowerCharKeepsWhiteSpace(s[0]);
      if IsWhiteSpace(s[0]) {
        assert TrimStart(l) == TrimStart(ToLowerCase(s[1..]));
        TrimStartLowerCommute(s[1..]);
      }
    }
  }

  /** Lower-casing distributes over dropping the last character. */
  lemma LowerCaseInit(s: string)
    requires s != []
    ensures ToLowerCase(s)[..|s| - 1] == ToLowerCase(s[..|s| - 1])
    ensures ToLowerCase(s)[|s| - 1] == LowerChar(s[|s| - 1])
  {
    var n := |s| - 1;
    var l, m := ToLowerCase(s), ToLowerCase(s[..n]);
    LowerCaseAt(s);
    LowerCaseAt(s[..n]);
    forall i | 0 <= i < n
      ensures l[..n][i] == m[i]
    {
      assert l[i] == LowerChar(s[i]);
      assert m[i] == LowerChar(s[..n][i]);
    }
  }

  lemma {:induction false} TrimEndLowerCommute(s: string)
    ensures ToLowerCase(TrimEnd(s)) == TrimEnd(ToLowerCase(s))
    decreases |s|
  {
    if s != [] {
      var n := |s| - 1;
      var l := ToLowerCase(s);
      LowerCaseInit(s);
      LowerCharKeepsWhiteSpace(s[n]);
      if IsWhiteSpace(s[n]) {
        assert TrimEnd(l) == TrimEnd(ToLowerCase(s[..n]));
        TrimEndLowerCommute(s[..n]);
      }
    }
  }

  /** Trimming and lower-casing commute, since no white space is a letter. */
  lemma TrimLowerCommute(s: string)
    ensures ToLowerCase(Trim(s)) == Trim(ToLowerCase(s))
  {
    TrimStartLowerCommute(s);
    TrimEndLowerCommute(TrimStart(s));
  }
}

=== FILE: json.dfy ===
/** JSON-shaped JavaScript values: request bodies, token claims and response bodies. */
module Json {
  import opened Wrappers

  datatype Value =
    | JNull
    | JBool(b: bool)
    | JNum(n: int)
    | JStr(s: string)
      /** A `Date`; `JSON.stringify` renders it as an ISO-8601 string. */
    | JDate(millis: int)
    | JArr(items: seq<Value>)
    | JObj(fields: map<string, Value>)

  /** JavaScript truthiness of a value (`if (v)`, `v || d`). */
  predicate TruthyValue(v: Value) {
    match v
    case JNull => false
    case JBool(b) => b
    case JNum(n) => n != 0
    case JStr(s) => s != ""
    case _ => true
  }

  /** Property access `o.key` on a plain object: `None` is `undefined`. */
  function Get(o: map<string, Value>, key: string): Option<Value> {
    if key in o then Some(o[key]) else None
  }

  /** `{ message: m }`, the shape of every JSON error reply. */
  function Message(m: string): Value {
    JObj(map["message" := JStr(m)])
  }

  /** An array of strings as JSON. */
  function Strings(xs: seq<string>): (v: Value)
    ensures v.JArr? && |v.items| == |xs|
    ensures forall i :: 0 <= i < |xs| ==> v.items[i] == JStr(xs[i])
  {
    if xs == [] then JArr([]) else JArr([JStr(xs[0])] + Strings(xs[1..]).items)
  }
}

=== FILE: teacher_model.dfy ===
/**
 * The teacher collection: document shape, the schema's required paths and
 * its two unique indexes, the `findOne` query the creation handler issues,
 * and `save`.  Passwords are stored as given: the schema has no hashing hook.
 */
module TeacherModel {
  import opened Wrappers
  import opened Json

  /** The `email` path of a document or of a request body: missing
      (`undefined`), `null`, or a string. */
  datatype EmailField = Absent | Null | Address(address: string)

  datatype Teacher = Teacher(
    id: string,
    teacherId: string,
    name: string,
    email: EmailField,
    password: string,
    classes: seq<string>,
    schedule: Value,
    createdAt: int)

  /** The collection, in insertion order. */
  type TeacherStore = seq<Teacher>

  /** `required: true` on a String path rejects a missing, null or empty value. */
  predicate HasRequired(t: Teacher) {
    t.teacherId != "" && t.name != "" && t.password != ""
  }

  /** Two documents the unique `teacherId` index or the sparse unique `email`
      index cannot both hold.  The sparse index skips documents without the
      field, but indexes `null` and `""` like any other value. */
  predicate Clash(a: Teacher, b: Teacher) {
    a.teacherId == b.teacherId || (!a.email.Absent? && a.email == b.email)
  }

  /** The two indexes treat a pair of documents alike in either order. */
  lemma ClashSymmetric(a: Teacher, b: Teacher)
    ensures Clash(a, b) <==> Clash(b, a)
  {
  }

  /** What the schema guarantees of every stored collection. */
  predicate ValidStore(s: TeacherStore) {
    && (forall i :: 0 <= i < |s| ==> HasRequired(s[i]))
    && (forall i, j :: 0 <= i < j < |s| ==> !Clash(s[i], s[j]))
  }

  /** In a valid collection no two documents share a teacherId, and no two
      share an email unless both lack the field. */
  lemma ValidStoreDistinct(s: TeacherStore, i: int, j: int)
    requires ValidStore(s)
    requires 0 <= i < |s| && 0 <= j < |s| && i != j
    ensures s[i].teacherId != s[j].teacherId
    ensures s[i].email.Absent? || s[i].email != s[j].email
  {
    if j < i {
      ClashSymmetric(s[j], s[i]);
    }
  }

  /** `{ $or: [{ teacherId }, { email }] }`; an `email` of `None` is `null`. */
  datatype Filter = Filter(teacherId: string, email: Option<string>)

  /** MongoDB equality on `email`: `null` matches a null or a missing field. */
  predicate EmailMatches(stored: EmailField, q: Option<string>) {
    match q
    case None => !stored.Address?
    case Some(e) => stored == Address(e)
  }

  predicate Matches(t: Teacher, f: Filter) {
    t.teacherId == f.teacherId || EmailMatches(t.email, f.email)
  }

  /** `Teacher.findOne(filter)`: the first matching document, if any. */
  function FindOne(s: TeacherStore, f: Filter): (r: Option<Teacher>)
    ensures r.Some? <==> exists i :: 0 <= i < |s| && Matches(s[i], f)
    ensures r.Some? ==> r.value in s && Matches(r.value, f)
  {
    if s == [] then None
    else if Matches(s[0], f) then Some(s[0])
    else
      var r := FindOne(s[1..], f);
      assert forall i :: 1 <= i < |s| ==> s[i] == s[1..][i - 1];
      r
  }

  /** A query with a `null` email finds a document whenever some stored
      teacher has no address, even with a teacherId nobody has; one whose
      email is `""` does not count as having no address. */
  lemma NullQueryFindsNoAddress(s: TeacherStore, teacherId: string, i: int)
    requires 0 <= i < |s| && !s[i].email.Address?
    ensures FindOne(s, Filter(teacherId, None)).Some?
    ensures var found := FindOne(s, Filter(teacherId, None)).value;
            found.teacherId == teacherId || !found.email.Address?
  {
    assert Matches(s[i], Filter(teacherId, None));
  }

  /** The leading words of the errors Mongoose and MongoDB throw; the real
      messages go on to name the failing path, or the index and the key. */
  const ValidationFailed := "Teacher validation failed"
  const DuplicateKeyError := "E11000 duplicate key error"

  datatype SaveResult = Saved(store: TeacherStore) | Rejected(message: string)

  /** `doc.save()`: schema validation, then the unique indexes. */
  function Save(s: TeacherStore, t: Teacher): (r: SaveResult)
    ensures r.Saved? <==> HasRequired(t) && forall i :: 0 <= i < |s| ==> !Clash(s[i], t)
    ensures r.Saved? ==> r.store == s + [t]
    ensures r.Rejected? && HasRequired(t) ==> r.message == DuplicateKeyError
    ensures ValidStore(s) && r.Saved? ==> ValidStore(r.store)
  {
    if !HasRequired(t) then Rejected(ValidationFailed)
    else if exists i :: 0 <= i < |s| && Clash(s[i], t) then Rejected(DuplicateKeyError)
    else Saved(s + [t])
  }
}

=== FILE: teacher_route.dfy ===
/**
 * The teacher router: `router.post("/", protect, adminOnly, createTeacher)`.
 * A stage that halts ends the request; the later stages never run.
 */
module TeacherRoute {
  import opened Wrappers
  import opened Json
  import opened Http
  import opened Crypto
  import opened AuthMiddleware
  import opened TeacherModel
  import opened AdminManages
  import AdminAuth
  import JsString

  datatype RouteRequest = RouteRequest(auth: Request, body: TeacherBody)

  /** The three stages in their fixed order. */
  function CreateTeacherRoute(cfg: Config, tokens: TokenService, req: RouteRequest,
                              store: TeacherStore, env: SaveEnv): (r: Outcome)
    ensures Protect(cfg, tokens, req.auth).Halt? ==>
              var h := Protect(cfg, tokens, req.auth);
              r == Outcome(Throw(h.status, h.message), store)
    ensures Protect(cfg, tokens, req.auth).Proceed? && !IsAdmin(Protect(cfg, tokens, req.auth).value) ==>
              r == Outcome(Throw(403, AdminRequired), store)
    ensures Protect(cfg, tokens, req.auth).Proceed? && IsAdmin(Protect(cfg, tokens, req.auth).value) ==>
              r == CreateTeacher(req.body, store, env)
  {
    match Protect(cfg, tokens, req.auth)
    case Halt(status, message) => Outcome(Throw(status, message), store)
    case Proceed(user) =>
      match AdminOnly(Some(user))
      case Halt(status, message) => Outcome(Throw(status, message), store)
      case Proceed(_) => CreateTeacher(req.body, store, env)
  }

  /** No token anywhere: 401 and the collection is untouched. */
  lemma NoTokenNoTeacher(cfg: Config, tokens: TokenService, req: RouteRequest,
                         store: TeacherStore, env: SaveEnv)
    requires !JsString.Truthy(ExtractToken(req.auth))
    ensures CreateTeacherRoute(cfg, tokens, req, store, env) == Outcome(Throw(401, NoToken), store)
  {
  }

  /** A token but no signing secret: 500 and the collection is untouched. */
  lemma NoSecretNoTeacher(cfg: Config, tokens: TokenService, req: RouteRequest,
                          store: TeacherStore, env: SaveEnv)
    requires JsString.Truthy(ExtractToken(req.auth)) && !SecretConfigured(cfg)
    ensures CreateTeacherRoute(cfg, tokens, req, store, env) == Outcome(Throw(500, Misconfigured), store)
  {
  }

  /** A verified token whose `role` claim is not "admin" (or is absent):
      403 and the collection is untouched. */
  lemma NonAdminNoTeacher(cfg: Config, tokens: TokenService, req: RouteRequest,
                          store: TeacherStore, env: SaveEnv, claims: Payload)
    requires JsString.Truthy(ExtractToken(req.auth)) && SecretConfigured(cfg)
    requires tokens.verify(ExtractToken(req.auth).value, cfg.jwtSecret.value) == Some(claims)
    requires Get(claims, "role") != Some(JStr("admin"))
    ensures CreateTeacherRoute(cfg, tokens, req, store, env) == Outcome(Throw(403, AdminRequired), store)
  {
  }

  /** A verified admin token hands the request to `createTeacher` unchanged. */
  lemma AdminReachesHandler(cfg: Config, tokens: TokenService, req: RouteRequest,
                            store: TeacherStore, env: SaveEnv, claims: Payload)
    requires JsString.Truthy(ExtractToken(req.auth)) && SecretConfigured(cfg)
    requires tokens.verify(ExtractToken(req.auth).value, cfg.jwtSecret.value) == Some(claims)
    requires Get(claims, "role") == Some(JStr("admin"))
    ensures CreateTeacherRoute(cfg, tokens, req, store, env) == CreateTeacher(req.body, store, env)
  {
  }

  /** A token minted by admin registration or login carries no `role`, so
      even when it verifies (decoding to its payload plus `iat` and `exp`)
      it passes `protect` and is stopped by `adminOnly` with 403: teacher
      creation is unreachable with it.  Only an empty signed token, which
      `protect` treats as missing, is answered 401 instead. */
  lemma IssuedTokenNeverCreates(cfg: Config, tokens: TokenService, req: RouteRequest,
                                store: TeacherStore, env: SaveEnv,
                                admin: AdminAuth.Admin, iat: int, exp: int)
    requires SecretConfigured(cfg)
    requires ExtractToken(req.auth)
             == Some(tokens.sign(AdminAuth.TokenPayload(admin), cfg.jwtSecret.value, AdminAuth.TokenLifetime))
    requires tokens.verify(ExtractToken(req.auth).value, cfg.jwtSecret.value)
             == Some(Stamped(AdminAuth.TokenPayload(admin), iat, exp))
    ensures CreateTeacherRoute(cfg, tokens, req, store, env).store == store
    ensures CreateTeacherRoute(cfg, tokens, req, store, env).response.status in {401, 403}
    ensures ExtractToken(req.auth).value != "" ==>
              CreateTeacherRoute(cfg, tokens, req, store, env) == Outcome(Throw(403, AdminRequired), store)
    ensures ExtractToken(req.auth).value == "" ==>
              CreateTeacherRoute(cfg, tokens, req, store, env) == Outcome(Throw(401, NoToken), store)
  {
    var d := Stamped(AdminAuth.TokenPayload(admin), iat, exp);
    assert "role" !in d;
  }

  /** In particular the cookie a successful login sets never authorises
      teacher creation: a non-empty token in it is refused with 403. */
  lemma LoginCookieNeverCreates(cfg: Config, hasher: Hasher, tokens: TokenService,
                                login: AdminAuth.LoginBody, admins: AdminAuth.AdminStore,
                                body: TeacherBody, store: TeacherStore, env: SaveEnv, iat: int, exp: int)
    requires AdminAuth.Login(cfg, hasher, tokens, login, admins).status == 200
    requires var a := admins[AdminAuth.NormalizeEmail(login.email.value)];
             tokens.verify(tokens.sign(AdminAuth.TokenPayload(a), cfg.jwtSecret.value, AdminAuth.TokenLifetime),
                           cfg.jwtSecret.value)
             == Some(Stamped(AdminAuth.TokenPayload(a), iat, exp))
    ensures var cookie := AdminAuth.Login(cfg, hasher, tokens, login, admins).cookie.value;
            var req := RouteRequest(Request(None, Some(cookie.value), None), body);
            var r := CreateTeacherRoute(cfg, tokens, req, store, env);
            && r.store == store && r.response.status in {401, 403}
            && (cookie.value != "" ==> r == Outcome(Throw(403, AdminRequired), store))
  {
    var cookie := AdminAuth.Login(cfg, hasher, tokens, login, admins).cookie.value;
    var a := admins[AdminAuth.NormalizeEmail(login.email.value)];
    var req := RouteRequest(Request(None, Some(cookie.value), None), body);
    if cookie.value != "" {
      assert ExtractToken(req.auth) == Some(cookie.value);
      IssuedTokenNeverCreates(cfg, tokens, req, store, env, a, iat, exp);
    }
  }
}

=== FILE: wrappers.dfy ===
/** Optional values, standing for JavaScript's `undefined` / `null` versus a present value. */
module Wrappers {

  datatype Option<+T> = None | Some(value: T) {

    /** The value, or `default` when absent (JavaScript's `x ?? default`). */
    function GetOr(default: T): T {
      match this
      case Some(v) => v
      case None => default
    }
  }
}
